=== FILE: README.md ===
# Sort-keys reporter and swap planner, modelled in Dafny

This project models the core of an ESLint rule helper that checks that the
members of a TypeScript interface or type literal are listed in sorted key
order (`lib/plugin.js`). The model has four parts:

- **Option decoding.** The rule options `[order, { caseSensitive, natural }]`
  become the settings and the comparator-table key (`asc`, `ascI`, `descN`,
  `descIN`, ...).
- **Inversion scanner.** A sorted copy of the member list is made. Every
  adjacent pair that is out of order is reported, together with the member
  the current one should swap with. The scanner also checks the sanity
  assertions on the caller's report object.
- **Range and separator resolution.** This covers a member's indentation,
  the whole-line range that removing one of its leading comments takes, and
  the `,`/`;` separator that follows it or that its container uses.
- **Swap planner.** The fix for one report is the ordered list of edits that
  moves each member of the pair, with its comments, into the other's place.
  Each moved text has its trailing separator adjusted.

The modules follow that structure:

- `JsCore` holds the JavaScript built-ins the code relies on: `slice` with
  negative and inverted indices, `indexOf`, `join`, the trailing-character
  regular expressions and truthiness.
- `Options` holds option decoding.
- `Source` is an immutable snapshot of the linted source. Tokens, comments
  and the line-start table are explicit inputs, and the ESLint token queries
  are pure functions over them.
- `Ranges` holds range and separator resolution.
- `Sorting` is the sorted copy: a stable insertion sort keyed by the
  comparator.
- `Swapper` holds the swap planner.
- `Reporter` holds the scan.

A comparator is a function `(string, string) -> int`. The comparator table
`compareFunctions` is a parameter of the reporter, indexed by the key that
option decoding builds. Member identity
(`===`, `indexOf`) is value equality of `Node(span, key)`: two members of one
source never share a span.

Three details of `lib/plugin.js` that the model keeps as written:

- The indentation rule compares the line on which the previous token
  *starts* with the member's start line (lib/plugin.js:22).
- When the previous token shares the line, the indentation starts one
  character past that token's end, at `range[1] + 1` (lib/plugin.js:23).
- Only `,` is ever stripped from a moved text, by `/,$/`. A trailing `;` is
  kept (lib/plugin.js:118 and lib/plugin.js:126).

## Model

| member | source | states |
|---|---|---|
| JsCore.And | lib/plugin.js:160-161 | `options && x` is truthy exactly when both operands are; a falsy `options` is returned as is |
| JsCore.IndexOf | lib/plugin.js:181 | result is -1 exactly when the value is absent, otherwise the first position holding it |
| JsCore.Slice | lib/plugin.js:57 | an in-range pair yields the substring, an inverted pair yields the empty string, the result is never longer than the text |
| JsCore.JoinWithEmptyTail | lib/plugin.js:133-136 | `concat('').join(sep)` puts the separator after every part (proved by induction) |
| JsCore.StripComma | lib/plugin.js:118 | removes exactly one trailing comma when there is one, and changes nothing otherwise |
| Options.OrderOf | lib/plugin.js:158 | the order is the given order when that is non-empty, and `asc` exactly when the option is missing or empty; it is never empty |
| Options.Decode | lib/plugin.js:158-161 | case-insensitive exactly when `caseSensitive` is exactly `false`; natural exactly when `natural` is truthy; both off for an absent object; `options === false` makes it insensitive |
| Options.ComparatorKey | lib/plugin.js:162-164 | the key starts with the order and adds at most two letters; `I` follows the order exactly when case-insensitive; the key ends in `N` past the order exactly when natural |
| Options.KeyRoundTrip | lib/plugin.js:162-164 | the key built from settings with a known order parses back to those settings: order, then `I`, then `N` |
| Options.ParsedKeyRoundTrip | lib/plugin.js:162-164 | every key that parses is the key of the settings it parses to |
| Options.EightKeys | lib/plugin.js:162-166 | a known order yields one of exactly eight comparator keys |
| Options.KeyInjective | lib/plugin.js:162-166 | distinct settings never share a comparator key |
| Options.InsensitiveLabel | lib/plugin.js:201 | the `insensitive` label is non-empty exactly in case-insensitive mode |
| Options.NaturalLabel | lib/plugin.js:202 | the `natural` label is non-empty exactly in natural mode |
| Source.TokenBefore | lib/plugin.js:18 | no token exactly when every token ends after the offset; otherwise a token of the source ending at or before it, with every later token ending after the offset (the nearest one) |
| Source.TokenAfter | lib/plugin.js:61-63 | no token exactly when no token the filter accepts starts at or after the offset; otherwise the first such token of the source |
| Source.FirstFrom | lib/plugin.js:61-63 | the first token starting at or after the offset that the filter accepts; no earlier such token exists |
| Source.WithinPositions | lib/plugin.js:102 | the positions picked ascend strictly, each holds a comment within the bounds, and every such position is picked |
| Source.CommentsWithin | lib/plugin.js:102 | a comment is returned exactly when it lies within the bounds, and the result is the subsequence of the comments at the picked positions, in source order |
| Source.CommentsBefore | lib/plugin.js:102 | a comment is returned exactly when it lies between the end of the previous token and the node; the result keeps the source order of the comments (a subsequence at strictly ascending positions) |
| Source.CommentsBeforeHaveTokenBefore | lib/plugin.js:144 | a comment attached to a member is itself preceded by a token, so its line range is defined |
| Ranges.IndentRange | lib/plugin.js:17-29 | ends at the node's start; starts one past the previous token when that token starts on the node's line, otherwise at the start of the node's line |
| Ranges.RangeWithIndent | lib/plugin.js:31-33 | ends at the node's end and starts where its indentation starts: one past a previous token on the same line, otherwise at the start of the node's line |
| Ranges.LineRange | lib/plugin.js:39-54 | the node's own range when its indented start is not a line start; otherwise from that line start to the start of the line after its last line, or an undefined end past the table |
| Ranges.IndexOfIncreasing | lib/plugin.js:41 | in the increasing line-start table, `findIndex` finds a line start at its own line |
| Ranges.LineRangeTakesWholeLines | lib/plugin.js:35-54 | `getLineRange` of a comment (or any span) alone on its lines is exactly those whole lines, which cover it |
| Ranges.LineRangeKeepsSharedLine | lib/plugin.js:35-54 | `getLineRange` of a comment (or any span) that shares its first line with the previous token is its own range |
| Ranges.IndentText | lib/plugin.js:56-58 | the source between the indentation start and the node when that range is in bounds; empty when the indentation would start at or after the node |
| Ranges.FormattedText | lib/plugin.js:92-94 | the formatted text ends with the node's own source text |
| Ranges.FormattedTextIsIndentedSlice | lib/plugin.js:92-94 | the formatted text is the source under the indent-inclusive range; for an element alone on its line, from the line start to its end |
| Ranges.NodePunctuator | lib/plugin.js:60-69 | any result is a `,` or `;` punctuator of the source after the node |
| Ranges.NodePunctuatorIsNextSeparator | lib/plugin.js:60-69 | a result is the first non-colon punctuator after the node; no result means every later separator comes after a terminating punctuator |
| Ranges.FirstPunctuated | lib/plugin.js:78-83 | the first member in body order that has a separator, or -1 when none has one |
| Ranges.MemberPunctuatorText | lib/plugin.js:71-87 | the node's own separator, else that of the first member with one, else empty; empty exactly when no member has a separator |
| Sorting.Sort | lib/plugin.js:170-172 | the sorted copy is a permutation of the member list |
| Sorting.SortSorted | lib/plugin.js:170-172 | the sorted copy is sorted under a consistent comparator |
| Sorting.SortStable | lib/plugin.js:170-172 | members the comparator ranks level keep their input order (stability) |
| Sorting.SortOfSorted | lib/plugin.js:170-172 | an already sorted list is its own sorted copy |
| Swapper.DropsFollowingToken | lib/plugin.js:103-116 | when the token after the node is removed, it is a punctuator of the source at or after the node's end and the node has a `,` or `;` separator |
| Swapper.IsLast | lib/plugin.js:105 | the node goes last exactly when the sorted list ends with its only occurrence, or is empty (`indexOf` then yields `-1 === length - 1`) |
| Swapper.IsLastReplacingLast | lib/plugin.js:106-107 | the node goes last and the container holds the other node first at that last sorted position (or lacks it when the sorted list is empty) |
| Swapper.Separated | lib/plugin.js:121-123 | a separator is appended exactly when the text does not already end in one; the result ends in one unless the separator is empty |
| Swapper.Rewrite | lib/plugin.js:109-127 | the moved text differs from the formatted text only in its trailing separator run; it ends in a separator when one is known and the last slot is not involved; in the last slot a trailing comma is dropped |
| Swapper.MovedText | lib/plugin.js:105-127 | the same facts for a node of the source, with the separator that the node's own punctuator or its container gives; in the last slot the moved text ends without a comma unless the formatted text ends in two |
| Swapper.CommentBlock | lib/plugin.js:129-139 | the inserted comment block is each comment's text followed by a line break |
| Swapper.CommentRemovals | lib/plugin.js:144 | one `getLineRange` removal per comment, in comment order: its whole lines when it starts a line, otherwise its own range |
| Swapper.PlaceEdits | lib/plugin.js:100-148 | one node's edits insert its moved text before the other node and remove the node |
| Swapper.HeaderLayout | lib/plugin.js:111-139 | the edits ahead of the moved text are the following token's removal (if dropped), then the comment block (if any) |
| Swapper.NodeEditsLayout | lib/plugin.js:100-148 | the order of one node's edits: token removal, comment block, moved text before the other node, node removal, comment line removals |
| Swapper.DroppedTokenIsSeparator | lib/plugin.js:103-116 | the token removed after a node is its own separator unless a colon follows the node |
| Swapper.NodeEditsStayWithNode | lib/plugin.js:100-148 | one node's edits insert only before the other node and remove only the node, its following token or its comments' lines |
| Swapper.SwapWith | lib/plugin.js:96-153 | the swap inserts each moved text before the other node and removes both nodes |
| Swapper.Swap | lib/plugin.js:96-153 | the swap closure inserts each node's moved text before the other, removes both nodes, anchors insertions only at the pair and removes only what stays with the pair |
| Swapper.SwapStaysWithinPair | lib/plugin.js:96-153 | the swap inserts each moved text before the other node and removes both nodes; it anchors and removes nothing outside the pair |
| Reporter.Inversions | lib/plugin.js:174-180 | a position is listed exactly when it is an adjacent inversion; positions ascend |
| Reporter.ReportData | lib/plugin.js:197-204 | message data holds the current and previous keys, order and labels, with every caller field overriding them |
| Reporter.Replacement | lib/plugin.js:181-182 | the current member's sorted position lies in the list, and the replacement is the member the list holds there |
| Reporter.ReplacementIsSelf | lib/plugin.js:181-182 | for a list without repeated members, the replacement is the current member exactly when the sorted copy keeps it at its own position |
| Reporter.FixEdits | lib/plugin.js:205-210 | no edits exactly when the replacement is the current member; otherwise both moved texts inserted and both members removed |
| Reporter.ReportAt | lib/plugin.js:175-212 | fails with the location message when `loc` is missing, else with the message message when the message is empty; otherwise the report for the current member with its data and fix |
| Reporter.ScanUpTo | lib/plugin.js:174-214 | as many reports as reported positions; every reported position lies in the scanned range and is an inversion; an error is the failure of the report at some scanned inversion |
| Reporter.ScanUpToReports | lib/plugin.js:174-214 | the reports made are, in order, the reports at the positions reported |
| Reporter.ScanUpToPositions | lib/plugin.js:174-214 | without an error all inversions are reported in order; with one, those before the first inversion whose report failed, and the error is its message |
| Reporter.ScanUpToStops | lib/plugin.js:186-193 | after a failed assertion later positions change nothing |
| Reporter.ScanWith | lib/plugin.js:174-214 | the loop computes the reference scan; a list in order yields no reports and no error |
| Reporter.Scan | lib/plugin.js:162-215 | the reporter sorts and scans with the comparator the decoded settings' key selects; it equals the reference scan with the reports of `ReportAt` against the sorted copy; a list in order yields nothing |

## Left out

- `utils/compareFunctions` is not part of this model. The comparator table is a parameter. Sortedness of the sorted copy is proved for a consistent comparator: sign-antisymmetric, with a transitive "not after" relation.
- `utils/ast` is not part of this model. `getObjectParent`, `getObjectBody` and `getPropertyName` become inputs: the container body in `Context` and the key in `Node`.
- The parser is not modelled. Tokens, comments and the line-start table are inputs.
- `context.report` and the fixer are not modelled beyond the edits they receive. Edits are data. Applying them, and the host's overlap handling and repeated passes, are outside the code modelled.
- The engine's `Array.prototype.sort` is modelled as a stable insertion sort. For an inconsistent comparator the engine's order is unspecified. The model then fixes one particular order.
- `getTokenBefore` returning `null` makes the source throw. Every member has at least the opening delimiter before it, so this is a precondition (`HasTokenBefore`), not an error path.
- JavaScript numbers in the options are integers plus `NaN`. Other floating-point values are not modelled; only their truthiness matters there.
- The order option is `Option<string>`. Non-string order values, which the rule's schema rejects, are not modelled.
- Reporter.Scan: an order option other than `asc`/`desc`, which the rule's schema rejects, builds a key with no entry in `compareFunctions`; the source then throws a `TypeError` on the first comparison of a list of two or more members. The comparator table parameter stands for existing entries (`KnownOrder` keys), and this error path is not modelled.
- Reporter.ReportAt: fields of the report object other than `loc`, `message` and `data` are not modelled. In the source, `...rest` is spread last and could override `node` or `fix`.
- Swapper.Rewrite: text that lands in the last slot is free of a trailing comma only when the formatted text does not end in two commas. `/,$/` removes a single comma, and member text never ends in two.
- Reporter.ReportsOf: positions outside `1 .. |nodes| - 1` get a placeholder failure. The scan never asks for them.
- Text is a sequence of `char`, one per UTF-16 code unit, as `slice`, `indexOf` and the source offsets count. This matches the code only for text whose characters lie in the Basic Multilingual Plane; the UTF-16 encoding of other characters as surrogate pairs is not modelled.
- The commented-out lines at lib/plugin.js:104 and lib/plugin.js:150 are not modelled.

=== FILE: jscore.dfy ===
/** The few JavaScript built-ins the plugin relies on, over strings of one
    `char` per code unit: `Array.prototype.indexOf`, `String.prototype.slice`,
    `Array.prototype.join`, the trailing-character regular expressions and
    the truthiness of the values option decoding looks at. */
module JsCore {

  datatype Option<+T> = None | Some(value: T)

  /** A JavaScript value, as far as option decoding inspects it. Numbers are
      kept as integers; NaN is the one non-integer value whose truthiness
      differs from an integer's. */
  datatype JsValue =
    | Undefined
    | Null
    | Bool(b: bool)
    | Num(n: int)
    | NaN
    | Str(s: string)
    | Obj(props: map<string, JsValue>)

  /** `Boolean(v)` */
  predicate Truthy(v: JsValue) {
    match v
    case Undefined => false
    case Null => false
    case NaN => false
    case Bool(b) => b
    case Num(n) => n != 0
    case Str(s) => s != ""
    case Obj(_) => true
  }

  /** Property read `v.name` on a value that is neither null nor undefined:
      only objects carry the properties modelled here. */
  function Get(v: JsValue, name: string): JsValue {
    if v.Obj? && name in v.props then v.props[name] else Undefined
  }

  /** `a && b`: the first operand when it is falsy, otherwise the second. */
  function And(a: JsValue, b: JsValue): (r: JsValue)
    ensures Truthy(r) <==> Truthy(a) && Truthy(b)
    ensures !Truthy(a) ==> r == a
  {
    if Truthy(a) then b else a
  }

  /** `Array.prototype.indexOf` (and `findIndex(n => n === x)`): the first
      position holding `x`, or -1. */
  function IndexOf<T(==)>(s: seq<T>, x: T): (r: int)
    ensures -1 <= r < |s|
    ensures r == -1 <==> x !in s
    ensures 0 <= r ==> s[r] == x && forall j :: 0 <= j < r ==> s[j] != x
  {
    if |s| == 0 then -1
    else if s[0] == x then 0
    else
      var k := IndexOf(s[1..], x);
      if k < 0 then -1 else k + 1
  }

  /** How `slice` resolves one index argument against a length. */
  function ClampIndex(i: int, len: nat): (r: nat)
    ensures r <= len
    ensures 0 <= i <= len ==> r == i
  {
    if i < 0 then (if len + i < 0 then 0 else len + i)
    else if i > len then len
    else i
  }

  /** `String.prototype.slice(begin, end)`: negative indices count from the
      end, indices past the end are clamped, and an inverted pair yields the
      empty string. */
  function Slice(s: string, begin: int, end: int): (r: string)
    ensures 0 <= begin <= end <= |s| ==> r == s[begin..end]
    ensures 0 <= end <= begin ==> r == ""
    ensures |r| <= |s|
  {
    var b := ClampIndex(begin, |s|);
    var e := ClampIndex(end, |s|);
    if b >= e then "" else s[b..e]
  }

  /** Adjacent in-range slices concatenate. */
  lemma SliceConcat(s: string, a: int, b: int, c: int)
    requires 0 <= a <= b <= c <= |s|
    ensures Slice(s, a, b) + Slice(s, b, c) == Slice(s, a, c)
  {
    assert s[a..b] + s[b..c] == s[a..c];
  }

  /** `Array.prototype.join(sep)` on strings. */
  function Join(parts: seq<string>, sep: string): string
    decreases |parts|
  {
    if |parts| == 0 then ""
    else if |parts| == 1 then parts[0]
    else parts[0] + sep + Join(parts[1..], sep)
  }

  /** Every part followed by the terminator. */
  function Terminated(parts: seq<string>, term: string): string
    decreases |parts|
  {
    if |parts| == 0 then "" else parts[0] + term + Terminated(parts[1..], term)
  }

  /** Joining with one extra empty part terminates every part:
      `parts.concat('').join(sep)` puts `sep` after each element. */
  lemma {:induction false} JoinWithEmptyTail(parts: seq<string>, sep: string)
    ensures Join(parts + [""], sep) == Terminated(parts, sep)
    decreases |parts|
  {
    if |parts| == 0 {
      assert parts + [""] == [""];
    } else {
      assert (parts + [""])[1..] == parts[1..] + [""];
      JoinWithEmptyTail(parts[1..], sep);
    }
  }

  /** `/[,;]$/.test(t)` */
  predicate EndsWithSeparator(t: string) {
    |t| > 0 && (t[|t| - 1] == ',' || t[|t| - 1] == ';')
  }

  /** `/,$/.test(t)` */
  predicate EndsWithComma(t: string) {
    |t| > 0 && t[|t| - 1] == ','
  }

  /** `t.replace(/,$/, '')`: drops one trailing comma, if there is one. */
  function StripComma(t: string): (r: string)
    ensures !EndsWithComma(t) ==> r == t
    ensures EndsWithComma(t) ==> r + "," == t
    ensures |r| <= |t|
  {
    if EndsWithComma(t) then t[..|t| - 1] else t
  }
}

=== FILE: options.dfy ===
/** Decoding of the rule options `[order, { caseSensitive, natural }]` into
    the settings the reporter uses and the key under which the comparator
    table is consulted (`asc`, `ascI`, `ascN`, `ascIN`, `desc`, ...). */
module Options {
  import opened JsCore

  /** The decoded options. `order` is the order option as given (after the
      `'asc'` default), the two flags are the case and natural switches. */
  datatype Settings = Settings(order: string, insensitive: bool, natural: bool)

  /** `context.options[0] || 'asc'`; the order option is a string when given. */
  function OrderOf(orderOption: Option<string>): (r: string)
    ensures r != ""
    ensures orderOption.Some? && orderOption.value != "" ==> r == orderOption.value
    ensures orderOption.None? || orderOption.value == "" ==> r == "asc"
  {
    if orderOption.Some? && orderOption.value != "" then orderOption.value else "asc"
  }

  /** Decodes `context.options`: insensitive only when the `caseSensitive`
      read yields exactly `false`, natural when the `natural` read is truthy.
      Both reads are guarded by `options && ...`, so a falsy `options` value
      stands in for the property. */
  function Decode(orderOption: Option<string>, options: JsValue): (r: Settings)
    ensures r.order == OrderOf(orderOption)
    ensures options.Obj? ==> (r.insensitive <==> Get(options, "caseSensitive") == Bool(false))
    ensures options.Obj? ==> (r.natural <==> Truthy(Get(options, "natural")))
    ensures options.Undefined? || options.Null? ==> !r.insensitive && !r.natural
    ensures !Truthy(options) ==> !r.natural
    ensures options == Bool(false) ==> r.insensitive
  {
    Settings(
      OrderOf(orderOption),
      And(options, Get(options, "caseSensitive")) == Bool(false),
      Truthy(And(options, Get(options, "natural"))))
  }

  /** The comparator-table key: the order, then `I` when case-insensitive,
      then `N` when natural. */
  function ComparatorKey(s: Settings): (r: string)
    ensures |s.order| <= |r| <= |s.order| + 2
    ensures r[..|s.order|] == s.order
    ensures s.insensitive <==> |r| > |s.order| && r[|s.order|] == 'I'
    ensures s.natural <==> |r| > |s.order| && r[|r| - 1] == 'N'
  {
    s.order + (if s.insensitive then "I" else "") + (if s.natural then "N" else "")
  }

  /** The orders the rule's schema admits. */
  predicate KnownOrder(order: string) {
    order == "asc" || order == "desc"
  }

  /** Reads a comparator key back into settings; only the eight keys built
      from a known order parse. */
  function ParseKey(key: string): (r: Option<Settings>)
    ensures r.Some? ==> KnownOrder(r.value.order)
  {
    if |key| >= 4 && key[..4] == "desc" then ParseFlags("desc", key[4..])
    else if |key| >= 3 && key[..3] == "asc" then ParseFlags("asc", key[3..])
    else None
  }

  function ParseFlags(order: string, flags: string): Option<Settings> {
    if flags == "" then Some(Settings(order, false, false))
    else if flags == "I" then Some(Settings(order, true, false))
    else if flags == "N" then Some(Settings(order, false, true))
    else if flags == "IN" then Some(Settings(order, true, true))
    else None
  }

  /** Decoding a key recovers the settings it was built from: the key
      determines the order and both flags. */
  lemma KeyRoundTrip(s: Settings)
    requires KnownOrder(s.order)
    ensures ParseKey(ComparatorKey(s)) == Some(s)
  {
    var flags := (if s.insensitive then "I" else "") + (if s.natural then "N" else "");
    assert ComparatorKey(s) == s.order + flags;
    if s.order == "asc" {
      assert (s.order + flags)[..3] == "asc";
      assert (s.order + flags)[3..] == flags;
      var k := s.order + flags;
      assert !(|k| >= 4 && k[..4] == "desc") by {
        if |k| >= 4 {
          assert k[..4][0] == 'a';
        }
      }
    } else {
      assert (s.order + flags)[..4] == "desc";
      assert (s.order + flags)[4..] == flags;
    }
  }

  /** Every key that parses is the key of the settings it parses to. */
  lemma ParsedKeyRoundTrip(key: string)
    requires ParseKey(key).Some?
    ensures ComparatorKey(ParseKey(key).value) == key
  {
    if |key| >= 4 && key[..4] == "desc" {
      assert key == "desc" + key[4..];
    } else {
      assert key == "asc" + key[3..];
    }
  }

  /** The keys reachable from a known order are exactly these eight. */
  lemma EightKeys(s: Settings)
    requires KnownOrder(s.order)
    ensures ComparatorKey(s) in
      {"asc", "ascI", "ascN", "ascIN", "desc", "descI", "descN", "descIN"}
  {
    var flags := (if s.insensitive then "I" else "") + (if s.natural then "N" else "");
    if s.insensitive && s.natural {
      assert flags == "IN";
    } else if s.insensitive {
      assert flags == "I";
    } else if s.natural {
      assert flags == "N";
    } else {
      assert flags == "";
    }
    var key := s.order + flags;
    assert ComparatorKey(s) == key;
    if s.order == "asc" {
      assert key == "asc" || key == "ascI" || key == "ascN" || key == "ascIN";
    } else {
      assert key == "desc" || key == "descI" || key == "descN" || key == "descIN";
    }
  }

  /** Distinct settings never share a key, so the eight keys name eight
      distinct comparators. */
  lemma KeyInjective(s: Settings, t: Settings)
    requires KnownOrder(s.order) && KnownOrder(t.order)
    requires ComparatorKey(s) == ComparatorKey(t)
    ensures s == t
  {
    KeyRoundTrip(s);
    KeyRoundTrip(t);
  }

  /** The `insensitive` message label. */
  function InsensitiveLabel(s: Settings): (r: string)
    ensures r != "" <==> s.insensitive
  {
    if s.insensitive then "insensitive " else ""
  }

  /** The `natural` message label. */
  function NaturalLabel(s: Settings): (r: string)
    ensures r != "" <==> s.natural
  {
    if s.natural then "natural " else ""
  }
}

=== FILE: ranges.dfy ===
/** Range and separator resolution for a member of a container: its
    indentation, the whole-line range that removing one of its leading
    comments takes (`getLineRange`), the separator that follows it and the
    separator style of its container. */
module Ranges {
  import opened JsCore
  import opened Source

  /** A `[start, end]` pair as the host's fixer takes it. Starts may be
      computed out of bounds; `Slice` resolves them as the host does. */
  datatype Range = Range(start: int, end: int)

  /** A range whose end may be the host's `undefined` (`None`), which
      happens when a line-start table lookup falls off the end. */
  datatype LineSpan = LineSpan(start: int, end: Option<int>)

  /** Whether the token before `s` starts on the line `s` starts on. */
  predicate FollowsOnSameLine(src: SourceCode, s: Span)
    requires HasTokenBefore(src, s)
  {
    TokenBefore(src, s).value.span.startLine == s.startLine
  }

  /** A location that agrees with the line-start table: its column counts
      from the start of its line. */
  predicate LocAgrees(src: SourceCode, s: Span) {
    1 <= s.startLine <= |src.lineStarts| && src.lineStarts[s.startLine - 1] + s.startColumn == s.start
  }

  /** A line-start table whose offsets strictly increase. */
  predicate Increasing(t: seq<nat>) {
    forall i, j :: 0 <= i < j < |t| ==> t[i] < t[j]
  }

  /** `getIndentRange`: the whitespace before `s` on its own line, or, when
      another token precedes it on that line, the stretch from one past
      that token up to `s`. */
  function IndentRange(src: SourceCode, s: Span): (r: Range)
    requires HasTokenBefore(src, s)
    ensures r.end == s.start
    ensures FollowsOnSameLine(src, s) ==> r.start == TokenBefore(src, s).value.span.end + 1
    ensures !FollowsOnSameLine(src, s) && LocAgrees(src, s) ==> r.start == src.lineStarts[s.startLine - 1]
    ensures !FollowsOnSameLine(src, s) ==> r.start <= r.end
  {
    var prev := TokenBefore(src, s).value;
    if prev.span.startLine == s.startLine then Range(prev.span.end + 1, s.start)
    else Range(s.start - s.startColumn, s.start)
  }

  /** `getRangeWithIndent`: the node's range widened to its indentation. */
  function RangeWithIndent(src: SourceCode, s: Span): (r: Range)
    requires HasTokenBefore(src, s)
    ensures r.end == s.end
    ensures FollowsOnSameLine(src, s) ==> r.start == TokenBefore(src, s).value.span.end + 1
    ensures !FollowsOnSameLine(src, s) && LocAgrees(src, s) ==> r.start == src.lineStarts[s.startLine - 1]
  {
    Range(IndentRange(src, s).start, s.end)
  }

  /** `getLineRange`: when `s` with its indentation starts a line, the
      whole lines it occupies (through the start of the next line);
      otherwise its own range. */
  function LineRange(src: SourceCode, s: Span): (r: LineSpan)
    requires HasTokenBefore(src, s)
    ensures IndexOf<int>(src.lineStarts, RangeWithIndent(src, s).start) < 0 ==>
      r == LineSpan(s.start, Some(s.end))
    ensures 0 <= IndexOf<int>(src.lineStarts, RangeWithIndent(src, s).start) ==>
      r.start == RangeWithIndent(src, s).start
    ensures
      var k := IndexOf<int>(src.lineStarts, RangeWithIndent(src, s).start);
      var after := k + (1 + s.endLine - s.startLine);
      0 <= k ==> (r.end.Some? <==> 0 <= after < |src.lineStarts|)
                 && (r.end.Some? ==> r.end.value == src.lineStarts[after])
  {
    var start := RangeWithIndent(src, s).start;
    var k := IndexOf<int>(src.lineStarts, start);
    if k < 0 then LineSpan(s.start, Some(s.end))
    else
      var lines := 1 + s.endLine - s.startLine;
      var after := k + lines;
      LineSpan(src.lineStarts[k], if 0 <= after < |src.lineStarts| then Some(src.lineStarts[after]) else None)
  }

  /** In an increasing table the first position of a value is its only one. */
  lemma IndexOfIncreasing(t: seq<nat>, k: nat)
    requires Increasing(t)
    requires k < |t|
    ensures IndexOf<int>(t, t[k]) == k
  {
    assert t[k] in t;
  }

  /** For a comment (or any span passed to `getLineRange`) alone on its
      lines, the line range is those whole lines: it starts at its line's
      start and ends at the start of the line after its last, so it covers
      the span itself. */
  lemma {:induction false} LineRangeTakesWholeLines(src: SourceCode, s: Span)
    requires HasTokenBefore(src, s) && !FollowsOnSameLine(src, s)
    requires LocAgrees(src, s) && Increasing(src.lineStarts)
    requires s.startLine <= s.endLine < |src.lineStarts|
    requires s.end <= src.lineStarts[s.endLine]
    ensures LineRange(src, s) == LineSpan(src.lineStarts[s.startLine - 1], Some(src.lineStarts[s.endLine]))
    ensures LineRange(src, s).start <= s.start
    ensures s.end <= LineRange(src, s).end.value
  {
    IndexOfIncreasing(src.lineStarts, s.startLine - 1);
    assert RangeWithIndent(src, s).start == src.lineStarts[s.startLine - 1];
  }

  /** For a comment (or any span passed to `getLineRange`) that shares its
      first line with the token before it, and starts past that token's
      following character, the line range is its own range only: its
      indented start is strictly inside a line. */
  lemma {:induction false} LineRangeKeepsSharedLine(src: SourceCode, s: Span)
    requires HasTokenBefore(src, s) && FollowsOnSameLine(src, s)
    requires Increasing(src.lineStarts)
    requires LocAgrees(src, TokenBefore(src, s).value.span)
    requires TokenBefore(src, s).value.span.start <= TokenBefore(src, s).value.span.end
    requires TokenBefore(src, s).value.span.end + 1 <= s.start
    requires s.startLine < |src.lineStarts| ==> s.start < src.lineStarts[s.startLine]
    ensures LineRange(src, s) == LineSpan(s.start, Some(s.end))
  {
    var p := TokenBefore(src, s).value.span;
    var x := p.end + 1;
    var line := s.startLine - 1;
    assert src.lineStarts[line] <= p.start < x;
    assert x !in src.lineStarts by {
      forall i | 0 <= i < |src.lineStarts|
        ensures src.lineStarts[i] != x
      {
        if i <= line {
          assert src.lineStarts[i] <= src.lineStarts[line];
        } else {
          assert src.lineStarts[line + 1] <= src.lineStarts[i];
        }
      }
    }
  }

  /** `getIndentText` */
  function IndentText(src: SourceCode, s: Span): (r: string)
    requires HasTokenBefore(src, s)
    ensures 0 <= IndentRange(src, s).start <= s.start <= |src.text| ==>
      r == src.text[IndentRange(src, s).start..s.start]
    ensures IndentRange(src, s).start >= s.start ==> r == ""
  {
    var ir := IndentRange(src, s);
    Slice(src.text, ir.start, ir.end)
  }

  /** `getFormattedText`: indentation followed by the node's own text. */
  function FormattedText(src: SourceCode, s: Span): (r: string)
    requires HasTokenBefore(src, s)
    ensures |GetText(src, s)| <= |r| && r[|r| - |GetText(src, s)|..] == GetText(src, s)
  {
    IndentText(src, s) + GetText(src, s)
  }

  /** When the indentation range is well formed, the formatted text is
      exactly the source under the indent-inclusive range; for an element
      alone on its line that is everything from the line start to its end. */
  lemma FormattedTextIsIndentedSlice(src: SourceCode, s: Span)
    requires HasTokenBefore(src, s)
    requires 0 <= IndentRange(src, s).start <= s.start <= s.end <= |src.text|
    ensures FormattedText(src, s) == Slice(src.text, RangeWithIndent(src, s).start, s.end)
    ensures !FollowsOnSameLine(src, s) && LocAgrees(src, s) ==>
      FormattedText(src, s) == src.text[src.lineStarts[s.startLine - 1]..s.end]
  {
    SliceConcat(src.text, IndentRange(src, s).start, s.start, s.end);
  }

  /** A member separator: a `,` or `;` punctuator (`/^[,;]$/`). */
  predicate IsSeparator(t: Token) {
    t.kind == Punctuator && (t.value == "," || t.value == ";")
  }

  /** `getNodePunctuator`: the first punctuator after `s` other than `:`,
      provided it is a separator; any other punctuator (a closing brace,
      say) ends the search with no result. */
  function NodePunctuator(src: SourceCode, s: Span): (r: Option<Token>)
    ensures r.Some? ==> IsSeparator(r.value) && r.value in src.tokens && r.value.span.start >= s.end
  {
    match TokenAfter(src, s, PunctuatorExceptColon)
    case Some(t) => if t.value == "," || t.value == ";" then Some(t) else None
    case None => None
  }

  /** The separator found is the first separator after `s` with no other
      terminating punctuator before it; when none is found, every separator
      after `s` is shadowed by an earlier terminating punctuator. */
  lemma NodePunctuatorIsNextSeparator(src: SourceCode, s: Span)
    ensures NodePunctuator(src, s).Some? ==>
      exists i :: 0 <= i < |src.tokens| && src.tokens[i] == NodePunctuator(src, s).value &&
        forall j :: 0 <= j < i && src.tokens[j].span.start >= s.end ==>
          !Accepts(PunctuatorExceptColon, src.tokens[j])
    ensures NodePunctuator(src, s).None? ==>
      forall i :: 0 <= i < |src.tokens| && src.tokens[i].span.start >= s.end && IsSeparator(src.tokens[i]) ==>
        exists j :: 0 <= j < i && src.tokens[j].span.start >= s.end &&
          Accepts(PunctuatorExceptColon, src.tokens[j]) && !IsSeparator(src.tokens[j])
  {
    var k := FirstFrom(src.tokens, s.end, PunctuatorExceptColon);
    if NodePunctuator(src, s).None? && 0 <= k {
      assert !IsSeparator(src.tokens[k]);
      forall i | 0 <= i < |src.tokens| && src.tokens[i].span.start >= s.end && IsSeparator(src.tokens[i])
        ensures exists j :: (0 <= j < i && src.tokens[j].span.start >= s.end &&
          Accepts(PunctuatorExceptColon, src.tokens[j]) && !IsSeparator(src.tokens[j]))
      {
        assert k < i;
      }
    }
  }

  /** Position of the first member of `body` that has its own separator, or -1. */
  function FirstPunctuated(src: SourceCode, body: seq<Node>): (k: int)
    ensures -1 <= k < |body|
    ensures 0 <= k ==> NodePunctuator(src, body[k].span).Some?
    ensures forall j :: 0 <= j < |body| && (k < 0 || j < k) ==> NodePunctuator(src, body[j].span).None?
    decreases |body|
  {
    if |body| == 0 then -1
    else if NodePunctuator(src, body[0].span).Some? then 0
    else
      var k := FirstPunctuated(src, body[1..]);
      if k < 0 then -1 else k + 1
  }

  /** `getMemberPunctuatorText`: the node's own separator, else that of the
      first member of its container that has one, else the empty string.
      The fallback may pick a style from anywhere in the container. */
  function MemberPunctuatorText(src: SourceCode, body: seq<Node>, s: Span): (r: string)
    ensures r == "" || r == "," || r == ";"
    ensures NodePunctuator(src, s).Some? ==> r == NodePunctuator(src, s).value.value
    ensures NodePunctuator(src, s).None? && r != "" ==>
      exists k :: 0 <= k < |body| && NodePunctuator(src, body[k].span).Some? &&
        NodePunctuator(src, body[k].span).value.value == r &&
        forall j :: 0 <= j < k ==> NodePunctuator(src, body[j].span).None?
    ensures r == "" <==>
      NodePunctuator(src, s).None? && forall m :: m in body ==> NodePunctuator(src, m.span).None?
  {
    var own := NodePunctuator(src, s);
    if own.Some? then own.value.value
    else
      var k := FirstPunctuated(src, body);
      if k < 0 then "" else NodePunctuator(src, body[k].span).value.value
  }
}

=== FILE: reporter.dfy ===
/** The reporter `createReporter` returns: given a member list, it sorts a
    copy, reports every adjacent pair out of order, and attaches to each
    report the swap of the current member with the member of the list that
    stands where the current member belongs. */
module Reporter {
  import opened JsCore
  import opened Source
  import opened Options
  import opened Sorting
  import opened Swapper

  /** What the caller's `createReportObject(currentNode, replaceNode)`
      returns: a location, a message (empty when missing) and extra message
      data. */
  datatype ReportObject = ReportObject(loc: Option<Span>, message: string, data: map<string, string>)

  /** The `fix` closure of a report: what it captures. The host runs it
      with `FixEdits`. */
  datatype Fix = Fix(sorted: seq<Node>, current: Node, replace: Node)

  /** One `context.report` call. */
  datatype Report = Report(
    node: Node,
    loc: Span,
    message: string,
    data: map<string, string>,
    fix: Fix)

  datatype Result<T> = Success(value: T) | Failure(message: string)

  /** The reports made, in order, and the assertion message that aborted
      the scan, if one did. */
  datatype ScanOutcome = ScanOutcome(reports: seq<Report>, error: Option<string>)

  /** What a scan works against: the source, the decoded options, and as
      `body` the members of the container of the list being scanned
      (`getObjectBody(getObjectParent(currentNode))`, which the swap
      closure derives from the current node). */
  datatype Context = Context(src: SourceCode, body: seq<Node>, settings: Settings)

  const MissingLocation := "createReportObject return value must include a node location"
  const MissingMessage := "createReportObject return value must include a problem message"

  /** The member at `i` sorts strictly after the one before it. */
  predicate IsInversion(cmp: Comparator, nodes: seq<Node>, i: int) {
    1 <= i < |nodes| && cmp(nodes[i - 1].key, nodes[i].key) > 0
  }

  /** The positions below `n` at which the list is out of order, ascending. */
  function Inversions(cmp: Comparator, nodes: seq<Node>, n: nat): (r: seq<nat>)
    requires n <= |nodes|
    ensures forall i :: i in r <==> i < n && IsInversion(cmp, nodes, i)
    ensures forall a, b :: 0 <= a < b < |r| ==> r[a] < r[b]
    ensures forall k :: 0 <= k < |r| ==> 1 <= r[k] < n
  {
    if n <= 1 then []
    else if IsInversion(cmp, nodes, n - 1) then Inversions(cmp, nodes, n - 1) + [n - 1]
    else Inversions(cmp, nodes, n - 1)
  }

  /** The message data of a report: the reporter's own fields, with the
      caller's `data` spread over them, so a caller field of the same name
      wins. */
  function ReportData(settings: Settings, current: Node, prev: Node, extra: map<string, string>): (d: map<string, string>)
    ensures d.Keys == extra.Keys + {"thisName", "prevName", "order", "insensitive", "natural"}
    ensures forall k :: k in extra ==> d[k] == extra[k]
    ensures "thisName" !in extra ==> d["thisName"] == current.key
    ensures "prevName" !in extra ==> d["prevName"] == prev.key
    ensures "order" !in extra ==> d["order"] == settings.order
    ensures "insensitive" !in extra ==> (d["insensitive"] != "" <==> settings.insensitive)
    ensures "natural" !in extra ==> (d["natural"] != "" <==> settings.natural)
  {
    map[
      "thisName" := current.key,
      "prevName" := prev.key,
      "order" := settings.order,
      "insensitive" := InsensitiveLabel(settings),
      "natural" := NaturalLabel(settings)] + extra
  }

  /** `nodeList[sortedBody.indexOf(currentNode)]`: the member the list holds
      at the position the current member takes in the sorted copy. */
  function Replacement(nodes: seq<Node>, sorted: seq<Node>, current: Node): (r: Node)
    requires multiset(sorted) == multiset(nodes)
    requires current in nodes
    ensures 0 <= IndexOf(sorted, current) < |nodes|
    ensures sorted[IndexOf(sorted, current)] == current
    ensures r == nodes[IndexOf(sorted, current)]
  {
    assert current in multiset(sorted);
    nodes[IndexOf(sorted, current)]
  }

  /** For a list without repeated members, the replacement is the current
      member itself exactly when the sorted copy keeps it in its place. */
  lemma ReplacementIsSelf(nodes: seq<Node>, sorted: seq<Node>, current: Node, i: int)
    requires multiset(sorted) == multiset(nodes)
    requires 0 <= i < |nodes| && nodes[i] == current
    requires forall a, b :: 0 <= a < b < |nodes| ==> nodes[a] != nodes[b]
    ensures Replacement(nodes, sorted, current) == current <==> IndexOf(sorted, current) == i
  {
    var r := Replacement(nodes, sorted, current);
    var k := IndexOf(sorted, current);
    if k != i {
      assert r == nodes[k] != nodes[i] by {
        if k < i {} else {}
      }
    }
  }

  /** Running a report's `fix` closure: the swap of the current member with
      its replacement, or no edits (`undefined`) when the two are the same
      member. */
  function FixEdits(ctx: Context, f: Fix): (r: Option<seq<Edit>>)
    requires HasTokenBefore(ctx.src, f.current.span) && HasTokenBefore(ctx.src, f.replace.span)
    ensures r.None? <==> f.current == f.replace
    ensures r.Some? ==>
      && InsertBefore(f.replace, MovedText(ctx.src, ctx.body, f.sorted, f.current, f.replace)) in r.value
      && InsertBefore(f.current, MovedText(ctx.src, ctx.body, f.sorted, f.replace, f.current)) in r.value
      && RemoveSpan(f.current.span) in r.value
      && RemoveSpan(f.replace.span) in r.value
  {
    if f.current != f.replace then
      SwapStaysWithinPair(ctx.src, f.current, f.replace,
        MovedText(ctx.src, ctx.body, f.sorted, f.current, f.replace),
        MovedText(ctx.src, ctx.body, f.sorted, f.replace, f.current));
      Some(Swap(ctx.src, ctx.body, f.sorted, f.current, f.replace))
    else None
  }

  /** The report for the inversion at `i`, one pass of the loop in
      `createReporter`: the sanity
      assertions on the caller's report object, then the report, whose fix
      is the swap with the replacement unless the replacement is the
      current member itself. */
  function ReportAt(ctx: Context, cmp: Comparator, create: (Node, Node) -> ReportObject,
                    nodes: seq<Node>, sorted: seq<Node>, i: nat): (r: Result<Report>)
    requires 1 <= i < |nodes|
    requires multiset(sorted) == multiset(nodes)
    ensures var replace := Replacement(nodes, sorted, nodes[i]);
      var ro := create(nodes[i], replace);
      && (r.Failure? <==> ro.loc.None? || ro.message == "")
      && (ro.loc.None? ==> r == Failure(MissingLocation))
      && (ro.loc.Some? && ro.message == "" ==> r == Failure(MissingMessage))
      && (r.Success? ==>
            && r.value.node == nodes[i]
            && r.value.loc == ro.loc.value
            && r.value.message == ro.message
            && r.value.data == ReportData(ctx.settings, nodes[i], nodes[i - 1], ro.data)
            && r.value.fix == Fix(sorted, nodes[i], replace))
  {
    var current := nodes[i];
    var replace := Replacement(nodes, sorted, current);
    var ro := create(current, replace);
    if ro.loc.None? then Failure(MissingLocation)
    else if ro.message == "" then Failure(MissingMessage)
    else
      Success(Report(current, ro.loc.value, ro.message, ReportData(ctx.settings, current, nodes[i - 1], ro.data),
                     Fix(sorted, current, replace)))
  }

  /** The report the reporter makes at each position of the member list:
      `ReportAt` against the sorted copy. Positions outside `1 .. |nodes| - 1`
      are never asked for. */
  function ReportsOf(ctx: Context, cmp: Comparator, create: (Node, Node) -> ReportObject,
                     nodes: seq<Node>): (report: nat -> Result<Report>)
    ensures forall i :: 1 <= i < |nodes| ==> report(i) == ReportAt(ctx, cmp, create, nodes, Sort(cmp, nodes), i)
  {
    var sorted := Sort(cmp, nodes);
    i => if 1 <= i < |nodes| then ReportAt(ctx, cmp, create, nodes, sorted, i) else Failure(MissingLocation)
  }

  /** `reps` are the reports made, in order, at the positions `idx`. */
  ghost predicate Reported(report: nat -> Result<Report>, idx: seq<nat>, reps: seq<Report>)
    decreases |idx|
  {
    && |idx| == |reps|
    && (|idx| > 0 ==>
          var last := |idx| - 1;
          && report(idx[last]) == Success(reps[last])
          && Reported(report, idx[..last], reps[..last]))
  }

  lemma ReportedExtend(report: nat -> Result<Report>, idx: seq<nat>, reps: seq<Report>, i: nat, rep: Report)
    requires Reported(report, idx, reps)
    requires report(i) == Success(rep)
    ensures Reported(report, idx + [i], reps + [rep])
  {
    assert (idx + [i])[..|idx|] == idx;
    assert (reps + [rep])[..|reps|] == reps;
  }

  /** Read pointwise: the `k`-th report is the report at the `k`-th position. */
  lemma {:induction false} ReportedEach(report: nat -> Result<Report>, idx: seq<nat>, reps: seq<Report>)
    requires Reported(report, idx, reps)
    ensures |idx| == |reps|
    ensures forall k :: 0 <= k < |idx| ==> report(idx[k]) == Success(reps[k])
    decreases |idx|
  {
    if |idx| > 0 {
      var last := |idx| - 1;
      ReportedEach(report, idx[..last], reps[..last]);
      forall k | 0 <= k < last
        ensures report(idx[k]) == Success(reps[k])
      {
        assert idx[..last][k] == idx[k] && reps[..last][k] == reps[k];
      }
    }
  }

  /** The state of a scan: the outcome so far and the positions reported. */
  datatype ScanState = ScanState(out: ScanOutcome, reported: seq<nat>)

  /** Reference definition of the scan over positions `1 .. n - 1`, taken
      in increasing order: at an inversion the report is made, or its
      failed sanity assertion ends the scan, after which nothing more
      happens. */
  function ScanUpTo(cmp: Comparator, nodes: seq<Node>, report: nat -> Result<Report>, n: nat): (r: ScanState)
    requires n <= |nodes|
    ensures |r.out.reports| == |r.reported|
    ensures forall k :: 0 <= k < |r.reported| ==> r.reported[k] < n && IsInversion(cmp, nodes, r.reported[k])
    ensures r.out.error.Some? ==>
      exists i :: 1 <= i < n && IsInversion(cmp, nodes, i) && report(i) == Failure(r.out.error.value)
  {
    if n <= 1 then ScanState(ScanOutcome([], None), [])
    else
      var st := ScanUpTo(cmp, nodes, report, n - 1);
      if st.out.error.Some? || !IsInversion(cmp, nodes, n - 1) then st
      else
        match report(n - 1)
        case Failure(m) => ScanState(ScanOutcome(st.out.reports, Some(m)), st.reported)
        case Success(rep) => ScanState(ScanOutcome(st.out.reports + [rep], None), st.reported + [n - 1])
  }

  /** The reports the scan over `1 .. n - 1` makes are those at the
      positions it reports, in order. */
  lemma {:induction false} ScanUpToReports(cmp: Comparator, nodes: seq<Node>, report: nat -> Result<Report>, n: nat)
    requires n <= |nodes|
    ensures var st := ScanUpTo(cmp, nodes, report, n);
      Reported(report, st.reported, st.out.reports)
    decreases n
  {
    if n > 1 {
      ScanUpToReports(cmp, nodes, report, n - 1);
      var st := ScanUpTo(cmp, nodes, report, n - 1);
      if st.out.error.None? && IsInversion(cmp, nodes, n - 1) && report(n - 1).Success? {
        ReportedExtend(report, st.reported, st.out.reports, n - 1, report(n - 1).value);
      }
    }
  }

  /** The positions the scan over `1 .. n - 1` reports: without an error,
      all the inversions below `n`; with one, the inversions before the
      first inversion whose report failed, and the error is that failure's
      message. */
  lemma {:induction false} ScanUpToPositions(cmp: Comparator, nodes: seq<Node>, report: nat -> Result<Report>, n: nat)
    requires n <= |nodes|
    ensures var st := ScanUpTo(cmp, nodes, report, n);
      && (st.out.error.None? ==> st.reported == Inversions(cmp, nodes, n))
      && (st.out.error.Some? ==>
            exists f :: 1 <= f < n && IsInversion(cmp, nodes, f) &&
              report(f) == Failure(st.out.error.value) &&
              st.reported == Inversions(cmp, nodes, f))
    decreases n
  {
    if n > 1 {
      ScanUpToPositions(cmp, nodes, report, n - 1);
    }
  }

  /** Once a sanity assertion has failed, later positions change nothing. */
  lemma {:induction false} ScanUpToStops(cmp: Comparator, nodes: seq<Node>, report: nat -> Result<Report>, n: nat, m: nat)
    requires n <= m <= |nodes|
    requires ScanUpTo(cmp, nodes, report, n).out.error.Some?
    ensures ScanUpTo(cmp, nodes, report, m) == ScanUpTo(cmp, nodes, report, n)
    decreases m - n
  {
    if n < m {
      ScanUpToStops(cmp, nodes, report, n, m - 1);
    }
  }

  /** The loop of the reporter over one member list, given the report
      made at each position: every adjacent inversion is reported, in
      increasing position, until a report fails the sanity assertions,
      which aborts the scan. */
  method ScanWith(cmp: Comparator, nodes: seq<Node>, report: nat -> Result<Report>)
    returns (out: ScanOutcome, reported: seq<nat>)
    ensures ScanState(out, reported) == ScanUpTo(cmp, nodes, report, |nodes|)
    ensures (forall i :: 1 <= i < |nodes| ==> cmp(nodes[i - 1].key, nodes[i].key) <= 0) ==>
      out == ScanOutcome([], None)
  {
    out := ScanOutcome([], None);
    reported := [];
    if |nodes| == 0 {
      return;
    }
    var i: nat := 1;
    while i < |nodes|
      invariant 1 <= i <= |nodes|
      invariant out.error.None?
      invariant ScanState(out, reported) == ScanUpTo(cmp, nodes, report, i)
      invariant (forall j :: 1 <= j < |nodes| ==> cmp(nodes[j - 1].key, nodes[j].key) <= 0) ==>
        out == ScanOutcome([], None)
    {
      if cmp(nodes[i - 1].key, nodes[i].key) > 0 {
        var r := report(i);
        if r.Failure? {
          out := ScanOutcome(out.reports, Some(r.message));
          ScanUpToStops(cmp, nodes, report, i + 1, |nodes|);
          return;
        }
        out := ScanOutcome(out.reports + [r.value], None);
        reported := reported + [i];
      }
      i := i + 1;
    }
  }

  /** The reporter applied to one member list: the comparator is the
      `table` entry (`compareFunctions`) for the decoded settings' key, and
      the scan makes the reports of `ReportAt` against the sorted copy. */
  method Scan(ctx: Context, table: string -> Comparator, create: (Node, Node) -> ReportObject, nodes: seq<Node>)
    returns (out: ScanOutcome, reported: seq<nat>)
    ensures var cmp := table(ComparatorKey(ctx.settings));
      ScanState(out, reported) == ScanUpTo(cmp, nodes, ReportsOf(ctx, cmp, create, nodes), |nodes|)
    ensures var cmp := table(ComparatorKey(ctx.settings));
      (forall i :: 1 <= i < |nodes| ==> cmp(nodes[i - 1].key, nodes[i].key) <= 0) ==>
      out == ScanOutcome([], None)
  {
    var cmp := table(ComparatorKey(ctx.settings));
    out, reported := ScanWith(cmp, nodes, ReportsOf(ctx, cmp, create, nodes));
  }
}

=== FILE: sorting.dfy ===
/** The sorted copy of a member list (`[...nodeList].sort(...)`). The host
    engine's sort is stable; here it is a stable insertion sort keyed by
    the comparator on the members' keys, proved to produce a sorted
    permutation that keeps every class of equally-keyed members in its
    original order. For a consistent comparator that output is the only
    one a stable sort may produce. */
module Sorting {
  import opened Source

  /** The comparator chosen from the comparator table: negative, zero or
      positive as its first key sorts before, with or after its second. */
  type Comparator = (string, string) -> int

  /** What the sort needs of a comparator: sign antisymmetry and a
      transitive "not after" relation (a total preorder on keys). */
  ghost predicate Consistent(cmp: Comparator) {
    && (forall a, b {:trigger cmp(a, b), cmp(b, a)} :: cmp(a, b) > 0 <==> cmp(b, a) < 0)
    && (forall a, b, c {:trigger cmp(a, b), cmp(b, c), cmp(a, c)} ::
          cmp(a, b) <= 0 && cmp(b, c) <= 0 ==> cmp(a, c) <= 0)
  }

  /** Every member is not after any later member. */
  ghost predicate SortedBy(cmp: Comparator, s: seq<Node>) {
    forall i, j :: 0 <= i < j < |s| ==> cmp(s[i].key, s[j].key) <= 0
  }

  /** Inserts `x` into `t` after every member that does not sort after it. */
  function Insert(cmp: Comparator, t: seq<Node>, x: Node): (r: seq<Node>)
    ensures multiset(r) == multiset(t) + multiset{x}
    ensures |r| == |t| + 1
    decreases |t|
  {
    if |t| == 0 then [x]
    else if cmp(t[0].key, x.key) > 0 then [x] + t
    else
      assert t == [t[0]] + t[1..];
      [t[0]] + Insert(cmp, t[1..], x)
  }

  /** The sorted copy: a permutation of `s` (the input itself is a value
      and is left as it was). */
  function Sort(cmp: Comparator, s: seq<Node>): (r: seq<Node>)
    ensures multiset(r) == multiset(s)
    ensures |r| == |s|
    decreases |s|
  {
    if |s| == 0 then []
    else
      assert s == s[..|s| - 1] + [s[|s| - 1]];
      Insert(cmp, Sort(cmp, s[..|s| - 1]), s[|s| - 1])
  }

  /** A member that sorts before the head of a sorted list may go first. */
  lemma SortedCons(cmp: Comparator, x: Node, t: seq<Node>)
    requires Consistent(cmp)
    requires SortedBy(cmp, t) && |t| > 0 && cmp(t[0].key, x.key) > 0
    ensures SortedBy(cmp, [x] + t)
  {
    var r := [x] + t;
    forall i, j | 0 <= i < j < |r|
      ensures cmp(r[i].key, r[j].key) <= 0
    {
      if i == 0 {
        assert cmp(x.key, t[0].key) < 0;
        if j > 1 {
          assert cmp(t[0].key, t[j - 1].key) <= 0;
        }
      } else {
        assert r[i] == t[i - 1] && r[j] == t[j - 1];
      }
    }
  }

  /** The head of a sorted list may stay in front of any sorted rearrangement
      of its tail with one member added that does not sort before it. */
  lemma SortedKeepHead(cmp: Comparator, t: seq<Node>, x: Node, rest: seq<Node>)
    requires SortedBy(cmp, t) && |t| > 0 && cmp(t[0].key, x.key) <= 0
    requires SortedBy(cmp, rest) && multiset(rest) == multiset(t[1..]) + multiset{x}
    ensures SortedBy(cmp, [t[0]] + rest)
  {
    var r := [t[0]] + rest;
    forall i, j | 0 <= i < j < |r|
      ensures cmp(r[i].key, r[j].key) <= 0
    {
      if i == 0 {
        var e := rest[j - 1];
        assert e in multiset(rest);
        if e != x {
          assert e in multiset(t[1..]);
          var k :| 0 <= k < |t[1..]| && t[1..][k] == e;
          assert t[k + 1] == e;
        }
      } else {
        assert r[i] == rest[i - 1] && r[j] == rest[j - 1];
      }
    }
  }

  lemma {:induction false} InsertSorted(cmp: Comparator, t: seq<Node>, x: Node)
    requires Consistent(cmp)
    requires SortedBy(cmp, t)
    ensures SortedBy(cmp, Insert(cmp, t, x))
    decreases |t|
  {
    if |t| == 0 {
    } else if cmp(t[0].key, x.key) > 0 {
      SortedCons(cmp, x, t);
    } else {
      assert SortedBy(cmp, t[1..]);
      InsertSorted(cmp, t[1..], x);
      SortedKeepHead(cmp, t, x, Insert(cmp, t[1..], x));
    }
  }

  /** The sorted copy is sorted under a consistent comparator. */
  lemma {:induction false} SortSorted(cmp: Comparator, s: seq<Node>)
    requires Consistent(cmp)
    ensures SortedBy(cmp, Sort(cmp, s))
    decreases |s|
  {
    if |s| > 0 {
      SortSorted(cmp, s[..|s| - 1]);
      InsertSorted(cmp, Sort(cmp, s[..|s| - 1]), s[|s| - 1]);
    }
  }

  /** Inserting a member that no member of `t` sorts after appends it. */
  lemma {:induction false} InsertAfterAll(cmp: Comparator, t: seq<Node>, x: Node)
    requires forall i :: 0 <= i < |t| ==> cmp(t[i].key, x.key) <= 0
    ensures Insert(cmp, t, x) == t + [x]
    decreases |t|
  {
    if |t| > 0 {
      InsertAfterAll(cmp, t[1..], x);
      assert t == [t[0]] + t[1..];
    }
  }

  /** A sorted list without its last member is still sorted, and the last
      member sorts after none of the others. */
  lemma SortedSplit(cmp: Comparator, s: seq<Node>)
    requires SortedBy(cmp, s) && |s| > 0
    ensures SortedBy(cmp, s[..|s| - 1])
    ensures forall i :: 0 <= i < |s| - 1 ==> cmp(s[i].key, s[|s| - 1].key) <= 0
  {
    var init := s[..|s| - 1];
    forall i, j | 0 <= i < j < |init|
      ensures cmp(init[i].key, init[j].key) <= 0
    {
      assert init[i] == s[i] && init[j] == s[j];
    }
  }

  /** Sorting a list that is already sorted leaves it as it is, for any
      comparator. */
  lemma {:induction false} SortOfSorted(cmp: Comparator, s: seq<Node>)
    requires SortedBy(cmp, s)
    ensures Sort(cmp, s) == s
    decreases |s|
  {
    if |s| > 0 {
      var init := s[..|s| - 1];
      var x := s[|s| - 1];
      SortedSplit(cmp, s);
      calc {
        Sort(cmp, s);
        Insert(cmp, Sort(cmp, init), x);
        { SortOfSorted(cmp, init); }
        Insert(cmp, init, x);
        { InsertAfterAll(cmp, init, x); }
        init + [x];
      }
      assert init + [x] == s;
    }
  }

  /** The members of `s` that the comparator ranks level with key `k`, in
      the order `s` holds them. */
  function Level(cmp: Comparator, s: seq<Node>, k: string): (r: seq<Node>)
    ensures forall e :: e in r ==> e in s && cmp(e.key, k) == 0
    decreases |s|
  {
    if |s| == 0 then []
    else if cmp(s[0].key, k) == 0 then [s[0]] + Level(cmp, s[1..], k)
    else Level(cmp, s[1..], k)
  }

  lemma {:induction false} LevelAppend(cmp: Comparator, a: seq<Node>, b: seq<Node>, k: string)
    ensures Level(cmp, a + b, k) == Level(cmp, a, k) + Level(cmp, b, k)
    decreases |a|
  {
    if |a| == 0 {
      assert a + b == b;
    } else {
      assert (a + b)[0] == a[0];
      assert (a + b)[1..] == a[1..] + b;
      LevelAppend(cmp, a[1..], b, k);
    }
  }

  /** No member of `t` ranks level with `k` when all of them sort after a
      member that does. */
  lemma {:induction false} LevelOfLater(cmp: Comparator, t: seq<Node>, x: Node, k: string)
    requires Consistent(cmp)
    requires cmp(x.key, k) == 0
    requires forall i :: 0 <= i < |t| ==> cmp(t[i].key, x.key) > 0
    ensures Level(cmp, t, k) == []
    decreases |t|
  {
    if |t| > 0 {
      assert cmp(k, x.key) == 0;
      assert cmp(t[0].key, x.key) > 0;
      assert cmp(t[0].key, k) > 0;
      LevelOfLater(cmp, t[1..], x, k);
    }
  }

  /** Every member of a sorted list whose head sorts after `x` sorts after `x`. */
  lemma SortedAfterHead(cmp: Comparator, t: seq<Node>, x: Node)
    requires Consistent(cmp)
    requires SortedBy(cmp, t) && |t| > 0 && cmp(t[0].key, x.key) > 0
    ensures forall i :: 0 <= i < |t| ==> cmp(t[i].key, x.key) > 0
  {
    forall i | 0 <= i < |t|
      ensures cmp(t[i].key, x.key) > 0
    {
      if i > 0 {
        assert cmp(t[0].key, t[i].key) <= 0;
      }
    }
  }

  lemma {:induction false} InsertLevel(cmp: Comparator, t: seq<Node>, x: Node, k: string)
    requires Consistent(cmp)
    requires SortedBy(cmp, t)
    ensures Level(cmp, Insert(cmp, t, x), k) ==
      Level(cmp, t, k) + (if cmp(x.key, k) == 0 then [x] else [])
    decreases |t|
  {
    if |t| == 0 {
    } else if cmp(t[0].key, x.key) > 0 {
      LevelAppend(cmp, [x], t, k);
      LevelAppend(cmp, t, [x], k);
      if cmp(x.key, k) == 0 {
        SortedAfterHead(cmp, t, x);
        LevelOfLater(cmp, t, x, k);
      }
    } else {
      assert SortedBy(cmp, t[1..]);
      InsertLevel(cmp, t[1..], x, k);
    }
  }

  /** Stability: within every class of equally ranked keys, the sorted copy
      holds the members in the order the input holds them. */
  lemma {:induction false} SortStable(cmp: Comparator, s: seq<Node>, k: string)
    requires Consistent(cmp)
    ensures Level(cmp, Sort(cmp, s), k) == Level(cmp, s, k)
    decreases |s|
  {
    if |s| > 0 {
      var init := s[..|s| - 1];
      var x := s[|s| - 1];
      assert init + [x] == s;
      var tail := if cmp(x.key, k) == 0 then [x] else [];
      assert Sort(cmp, s) == Insert(cmp, Sort(cmp, init), x);
      SortStable(cmp, init, k);
      SortSorted(cmp, init);
      InsertLevel(cmp, Sort(cmp, init), x, k);
      assert Level(cmp, Sort(cmp, s), k) == Level(cmp, init, k) + tail;
      LevelAppend(cmp, init, [x], k);
      assert Level(cmp, [x], k) == tail by {
        assert [x][1..] == [];
      }
    }
  }
}

=== FILE: source.dfy ===
/** An immutable snapshot of the source being linted, and the token and
    comment queries the plugin asks of it. The parser that produces the
    snapshot is not modelled; tokens, comments and the line-start table are
    inputs. */
module Source {
  import opened JsCore

  /** Offsets are 0-based with an exclusive end; lines are 1-based and
      columns 0-based, as in an ESLint location. */
  datatype Span = Span(start: nat, end: nat, startLine: nat, startColumn: nat, endLine: nat)

  datatype TokenKind = Punctuator | Other

  datatype Token = Token(kind: TokenKind, value: string, span: Span)

  datatype Comment = Comment(span: Span)

  /** A member of a container, with the key the comparator sees. Two
      members of one source never share a span, so value equality of
      nodes coincides with the host's object identity. */
  datatype Node = Node(span: Span, key: string)

  /** The source text, its tokens and comments in source order, and the
      offset at which each line starts. */
  datatype SourceCode = SourceCode(
    text: string,
    tokens: seq<Token>,
    comments: seq<Comment>,
    lineStarts: seq<nat>)

  /** `sourceCode.getText(x)` */
  function GetText(src: SourceCode, s: Span): string {
    Slice(src.text, s.start, s.end)
  }

  /** Position of the token `getTokenBefore` returns for something starting
      at `offset`: the last token that ends at or before it, or -1. */
  function LastEndingBy(tokens: seq<Token>, offset: int): (i: int)
    ensures -1 <= i < |tokens|
    ensures 0 <= i ==> tokens[i].span.end <= offset
    ensures forall j :: i < j < |tokens| ==> tokens[j].span.end > offset
    decreases |tokens|
  {
    if |tokens| == 0 then -1
    else if tokens[|tokens| - 1].span.end <= offset then |tokens| - 1
    else LastEndingBy(tokens[..|tokens| - 1], offset)
  }

  /** `sourceCode.getTokenBefore(x)`; `None` stands for the host's `null`. */
  function TokenBefore(src: SourceCode, s: Span): (r: Option<Token>)
    ensures r.None? <==> forall t :: t in src.tokens ==> t.span.end > s.start
    ensures r.Some? ==> r.value in src.tokens && r.value.span.end <= s.start
    ensures r.Some? ==> exists i ::
      && 0 <= i < |src.tokens|
      && src.tokens[i] == r.value
      && forall j :: i < j < |src.tokens| ==> src.tokens[j].span.end > s.start
  {
    var i := LastEndingBy(src.tokens, s.start);
    if i < 0 then None else Some(src.tokens[i])
  }

  /** Whether something at `s` has a token before it, as every member of a
      container has (at least the opening delimiter). */
  predicate HasTokenBefore(src: SourceCode, s: Span) {
    TokenBefore(src, s).Some?
  }

  /** The token filters the plugin passes to `getTokenAfter`. */
  datatype TokenFilter = AnyToken | PunctuatorExceptColon

  predicate Accepts(f: TokenFilter, t: Token) {
    match f
    case AnyToken => true
    case PunctuatorExceptColon => t.kind == Punctuator && t.value != ":"
  }

  /** Position of the first token starting at or after `offset` that the
      filter accepts, or -1. */
  function FirstFrom(tokens: seq<Token>, offset: int, f: TokenFilter): (i: int)
    ensures -1 <= i < |tokens|
    ensures 0 <= i ==> tokens[i].span.start >= offset && Accepts(f, tokens[i])
    ensures forall j :: 0 <= j < |tokens| && (i < 0 || j < i) ==>
      !(tokens[j].span.start >= offset && Accepts(f, tokens[j]))
    decreases |tokens|
  {
    if |tokens| == 0 then -1
    else if tokens[0].span.start >= offset && Accepts(f, tokens[0]) then 0
    else
      var k := FirstFrom(tokens[1..], offset, f);
      if k < 0 then -1 else k + 1
  }

  /** `sourceCode.getTokenAfter(x, { filter })` */
  function TokenAfter(src: SourceCode, s: Span, f: TokenFilter): (r: Option<Token>)
    ensures r.None? <==> forall t :: t in src.tokens ==> !(t.span.start >= s.end && Accepts(f, t))
    ensures r.Some? ==> exists i ::
      && 0 <= i < |src.tokens|
      && src.tokens[i] == r.value
      && r.value.span.start >= s.end
      && Accepts(f, r.value)
      && forall j :: 0 <= j < i ==> !(src.tokens[j].span.start >= s.end && Accepts(f, src.tokens[j]))
  {
    var i := FirstFrom(src.tokens, s.end, f);
    if i < 0 then None else Some(src.tokens[i])
  }

  /** Whether a comment lies entirely within `[lo, hi]`. */
  predicate Within(c: Comment, lo: int, hi: int) {
    lo <= c.span.start && c.span.end <= hi
  }

  /** The positions from `from` on at which `cs` holds a comment lying
      within `[lo, hi]`, ascending. */
  function WithinPositions(cs: seq<Comment>, lo: int, hi: int, from: nat): (f: seq<nat>)
    requires from <= |cs|
    ensures forall k :: 0 <= k < |f| ==> from <= f[k] < |cs| && Within(cs[f[k]], lo, hi)
    ensures forall a, b :: 0 <= a < b < |f| ==> f[a] < f[b]
    ensures forall i :: from <= i < |cs| && Within(cs[i], lo, hi) ==> i in f
    decreases |cs| - from
  {
    if from == |cs| then []
    else if Within(cs[from], lo, hi) then [from] + WithinPositions(cs, lo, hi, from + 1)
    else WithinPositions(cs, lo, hi, from + 1)
  }

  /** The comments of `cs` from `from` on that lie within `[lo, hi]`, in
      source order: those at the positions `WithinPositions` picks. */
  function CommentsFrom(cs: seq<Comment>, lo: int, hi: int, from: nat): (r: seq<Comment>)
    requires from <= |cs|
    ensures forall c :: c in r <==> c in cs[from..] && Within(c, lo, hi)
    ensures |r| == |WithinPositions(cs, lo, hi, from)|
    ensures forall k :: 0 <= k < |r| ==> r[k] == cs[WithinPositions(cs, lo, hi, from)[k]]
    decreases |cs| - from
  {
    if from == |cs| then []
    else
      var rest := CommentsFrom(cs, lo, hi, from + 1);
      var r := if Within(cs[from], lo, hi) then [cs[from]] + rest else rest;
      CommentsFromMembers(cs, lo, hi, from, rest, r);
      CommentsFromPositions(cs, lo, hi, from, rest, r);
      r
  }

  /** One step of `CommentsFrom`: taking or skipping the comment at `from`
      keeps the membership right. */
  lemma CommentsFromMembers(cs: seq<Comment>, lo: int, hi: int, from: nat, rest: seq<Comment>, r: seq<Comment>)
    requires from < |cs|
    requires forall c :: c in rest <==> c in cs[from + 1..] && Within(c, lo, hi)
    requires r == if Within(cs[from], lo, hi) then [cs[from]] + rest else rest
    ensures forall c :: c in r <==> c in cs[from..] && Within(c, lo, hi)
  {
    assert cs[from..] == [cs[from]] + cs[from + 1..];
  }

  /** One step of `CommentsFrom`: taking or skipping the comment at `from`
      keeps the positions right. */
  lemma CommentsFromPositions(cs: seq<Comment>, lo: int, hi: int, from: nat, rest: seq<Comment>, r: seq<Comment>)
    requires from < |cs|
    requires |rest| == |WithinPositions(cs, lo, hi, from + 1)|
    requires forall k :: 0 <= k < |rest| ==> rest[k] == cs[WithinPositions(cs, lo, hi, from + 1)[k]]
    requires r == if Within(cs[from], lo, hi) then [cs[from]] + rest else rest
    ensures |r| == |WithinPositions(cs, lo, hi, from)|
    ensures forall k :: 0 <= k < |r| ==> r[k] == cs[WithinPositions(cs, lo, hi, from)[k]]
  {
    var g := WithinPositions(cs, lo, hi, from + 1);
    var f := WithinPositions(cs, lo, hi, from);
    if Within(cs[from], lo, hi) {
      assert f == [from] + g;
      forall k | 0 < k < |r|
        ensures r[k] == cs[f[k]]
      {
        assert r[k] == rest[k - 1] && f[k] == g[k - 1];
      }
    } else {
      assert f == g;
    }
  }

  /** The comments lying entirely within `[lo, hi]`, in source order. */
  function CommentsWithin(cs: seq<Comment>, lo: int, hi: int): (r: seq<Comment>)
    ensures forall c :: c in r <==> c in cs && Within(c, lo, hi)
    ensures |r| == |WithinPositions(cs, lo, hi, 0)|
    ensures forall k :: 0 <= k < |r| ==> r[k] == cs[WithinPositions(cs, lo, hi, 0)[k]]
  {
    assert cs[0..] == cs;
    CommentsFrom(cs, lo, hi, 0)
  }

  /** `sourceCode.getCommentsBefore(x)`: the comments between the token
      before `x` and `x` itself. */
  function CommentsBefore(src: SourceCode, s: Span): (r: seq<Comment>)
    requires HasTokenBefore(src, s)
    ensures forall c :: c in r <==>
      c in src.comments && TokenBefore(src, s).value.span.end <= c.span.start && c.span.end <= s.start
    ensures var f := WithinPositions(src.comments, TokenBefore(src, s).value.span.end, s.start, 0);
      && |r| == |f|
      && (forall k :: 0 <= k < |r| ==> r[k] == src.comments[f[k]])
      && (forall a, b :: 0 <= a < b < |f| ==> f[a] < f[b])
  {
    CommentsWithin(src.comments, TokenBefore(src, s).value.span.end, s.start)
  }

  /** A comment attached to a member has a token before it too, so the
      range helpers may be applied to it. */
  lemma CommentsBeforeHaveTokenBefore(src: SourceCode, s: Span, c: Comment)
    requires HasTokenBefore(src, s)
    requires c in CommentsBefore(src, s)
    ensures HasTokenBefore(src, c.span)
  {
    var t := TokenBefore(src, s).value;
    assert t in src.tokens && t.span.end <= c.span.start;
  }

  lemma AllCommentsBeforeHaveTokenBefore(src: SourceCode, s: Span)
    requires HasTokenBefore(src, s)
    ensures forall c :: c in CommentsBefore(src, s) ==> HasTokenBefore(src, c.span)
  {
    forall c | c in CommentsBefore(src, s)
      ensures HasTokenBefore(src, c.span)
    {
      CommentsBeforeHaveTokenBefore(src, s, c);
    }
  }
}

=== FILE: swapper.dfy ===
/** The fix of one reported pair: the edits that move the text of the
    current member and of its replacement (with indentation, leading
    comments and separator adjusted) into each other's place. */
module Swapper {
  import opened JsCore
  import opened Source
  import opened Ranges

  /** The host's edit primitives: `insertTextBefore(anchor, text)` inserts
      at the anchor's start offset; `remove`/`removeRange` delete a range.
      A `None` end is the host's `undefined`. */
  datatype Edit =
    | InsertBefore(anchor: Node, text: string)
    | Remove(start: int, end: Option<int>)

  /** `fixer.remove(x)` for a node or token. */
  function RemoveSpan(s: Span): Edit {
    Remove(s.start, Some(s.end))
  }

  /** `fixer.removeRange(getLineRange(c))` for a comment. */
  function RemoveLines(l: LineSpan): Edit {
    Remove(l.start, l.end)
  }

  /** `nextSibling && nextSibling.type === 'Punctuator' && getNodePunctuator(node)`:
      the token right after the node is removed. */
  predicate DropsFollowingToken(src: SourceCode, s: Span): (b: bool)
    ensures b ==>
      && TokenAfter(src, s, AnyToken).Some?
      && TokenAfter(src, s, AnyToken).value in src.tokens
      && TokenAfter(src, s, AnyToken).value.kind == Punctuator
      && TokenAfter(src, s, AnyToken).value.span.start >= s.end
      && NodePunctuator(src, s).Some?
      && IsSeparator(NodePunctuator(src, s).value)
  {
    var next := TokenAfter(src, s, AnyToken);
    next.Some? && next.value.kind == Punctuator && NodePunctuator(src, s).Some?
  }

  /** The node takes the last slot of the sorted order. An empty order
      counts too: `indexOf` yields -1, which is `length - 1`. */
  predicate IsLast(sorted: seq<Node>, node: Node): (b: bool)
    ensures b <==> (
      || |sorted| == 0
      || (sorted[|sorted| - 1] == node && node !in sorted[..|sorted| - 1]))
  {
    IndexOf(sorted, node) == |sorted| - 1
  }

  /** The node takes the last sorted slot, and that slot is where `other`
      stands in the container. */
  predicate IsLastReplacingLast(sorted: seq<Node>, body: seq<Node>, node: Node, other: Node): (b: bool)
    ensures b <==> (
      && IsLast(sorted, node)
      && if |sorted| == 0 then other !in body
         else |sorted| <= |body| && body[|sorted| - 1] == other && other !in body[..|sorted| - 1])
  {
    IsLast(sorted, node) && IndexOf(sorted, node) == IndexOf(body, other)
  }

  /** A text with its whole trailing run of `,`/`;` removed. */
  function TrimSeparators(t: string): (r: string)
    ensures |r| <= |t| && r == t[..|r|]
    ensures !EndsWithSeparator(r)
    decreases |t|
  {
    if EndsWithSeparator(t) then TrimSeparators(t[..|t| - 1]) else t
  }

  lemma TrimStripComma(t: string)
    ensures TrimSeparators(StripComma(t)) == TrimSeparators(t)
  {
  }

  lemma TrimAppendSeparator(t: string, sep: string)
    requires sep == "" || sep == "," || sep == ";"
    ensures TrimSeparators(t + sep) == TrimSeparators(t)
  {
    if sep == "" {
      assert t + sep == t;
    } else {
      assert (t + sep)[|t + sep| - 1] == sep[0];
      assert (t + sep)[..|t + sep| - 1] == t;
    }
  }

  /** `t` ending in a separator: itself when it already ends in one,
      else `t` followed by `sep`. */
  function Separated(t: string, sep: string): (r: string)
    requires sep == "" || sep == "," || sep == ";"
    ensures TrimSeparators(r) == TrimSeparators(t)
    ensures EndsWithSeparator(t) ==> r == t
    ensures !EndsWithSeparator(t) ==> r == t + sep
    ensures sep != "" ==> EndsWithSeparator(r)
    ensures |r| <= |t| + 1
  {
    if EndsWithSeparator(t) then
      TrimAppendSeparator(t, "");
      t
    else
      TrimAppendSeparator(t, sep);
      t + sep
  }

  /** The text rewriting in the swap closure of `createNodeSwapper`, on plain values: `f` is the
      formatted text, `sep` the member's separator style, `drops` whether
      the following separator token is removed, `last` whether the node
      goes last and `lastSlot` whether it also lands in the last slot. A
      trailing comma is dropped when the node goes last without its
      separator token being removed; a separator is appended unless the
      text already ends in one; a trailing comma is dropped again when the
      node lands in the last slot. */
  function Rewrite(f: string, sep: string, drops: bool, last: bool, lastSlot: bool): (r: string)
    requires sep == "" || sep == "," || sep == ";"
    requires lastSlot ==> last
    ensures TrimSeparators(r) == TrimSeparators(f)
    ensures |r| <= |f| + 1
    ensures !lastSlot && sep != "" ==> EndsWithSeparator(r)
    ensures lastSlot && !EndsWithComma(StripComma(f)) ==> !EndsWithComma(r)
    ensures drops && !EndsWithSeparator(f) ==> r == f + sep || (lastSlot && sep == "," && r == f)
    ensures !drops && !last && !EndsWithSeparator(f) ==> r == f + sep
  {
    var a := if drops then f else if last then StripComma(f) else f;
    TrimStripComma(f);
    var b := Separated(a, sep);
    TrimStripComma(b);
    if lastSlot then StripComma(b) else b
  }

  /** The moved text of a node going to `other`'s place. */
  function MovedText(src: SourceCode, body: seq<Node>, sorted: seq<Node>, node: Node, other: Node): (r: string)
    requires HasTokenBefore(src, node.span)
    ensures TrimSeparators(r) == TrimSeparators(FormattedText(src, node.span))
    ensures !IsLastReplacingLast(sorted, body, node, other) && MemberPunctuatorText(src, body, node.span) != "" ==>
      EndsWithSeparator(r)
    ensures DropsFollowingToken(src, node.span) && !EndsWithSeparator(FormattedText(src, node.span)) ==>
      var sep := NodePunctuator(src, node.span).value.value;
      r == FormattedText(src, node.span) + sep ||
      (IsLastReplacingLast(sorted, body, node, other) && sep == "," && r == FormattedText(src, node.span))
    ensures !DropsFollowingToken(src, node.span) && !IsLast(sorted, node) && !EndsWithSeparator(FormattedText(src, node.span)) ==>
      r == FormattedText(src, node.span) + MemberPunctuatorText(src, body, node.span)
    ensures IsLastReplacingLast(sorted, body, node, other) && !EndsWithComma(StripComma(FormattedText(src, node.span))) ==>
      !EndsWithComma(r)
  {
    Rewrite(FormattedText(src, node.span), MemberPunctuatorText(src, body, node.span),
            DropsFollowingToken(src, node.span), IsLast(sorted, node), IsLastReplacingLast(sorted, body, node, other))
  }

  /** The source text of each comment. */
  function CommentTexts(src: SourceCode, cs: seq<Comment>): (r: seq<string>)
    ensures |r| == |cs|
    ensures forall i :: 0 <= i < |cs| ==> r[i] == GetText(src, cs[i].span)
  {
    seq(|cs|, i requires 0 <= i < |cs| => GetText(src, cs[i].span))
  }

  /** The comment block inserted before the other node,
      `comments.map(getText).concat('').join('\n')`: each comment's text
      followed by a line break. */
  function CommentBlock(src: SourceCode, cs: seq<Comment>): (r: string)
    ensures r == Terminated(CommentTexts(src, cs), "\n")
  {
    JoinWithEmptyTail(CommentTexts(src, cs), "\n");
    Join(CommentTexts(src, cs) + [""], "\n")
  }

  /** One `getLineRange` removal per comment, in order: its whole lines
      when it starts a line, otherwise its own range. */
  function CommentRemovals(src: SourceCode, cs: seq<Comment>): (r: seq<Edit>)
    requires forall c :: c in cs ==> HasTokenBefore(src, c.span)
    ensures |r| == |cs|
    ensures forall j :: 0 <= j < |cs| ==> r[j] == RemoveLines(LineRange(src, cs[j].span))
    decreases |cs|
  {
    if |cs| == 0 then []
    else [RemoveLines(LineRange(src, cs[0].span))] + CommentRemovals(src, cs[1..])
  }

  /** The edits ahead of the moved text: the removal of the token after the
      node, then the comment block inserted before `other`. */
  function Header(src: SourceCode, node: Node, other: Node): seq<Edit>
    requires HasTokenBefore(src, node.span)
  {
    var cs := CommentsBefore(src, node.span);
    (if DropsFollowingToken(src, node.span) then [RemoveSpan(TokenAfter(src, node.span, AnyToken).value.span)] else []) +
    (if |cs| > 0 then [InsertBefore(other, CommentBlock(src, cs))] else [])
  }

  /** The header holds the removal of the following token (when the node
      drops it) and then the comment block (when there are comments). */
  lemma HeaderLayout(src: SourceCode, node: Node, other: Node)
    requires HasTokenBefore(src, node.span)
    ensures var head := Header(src, node, other);
      var cs := CommentsBefore(src, node.span);
      var d := if DropsFollowingToken(src, node.span) then 1 else 0;
      && |head| == d + (if |cs| > 0 then 1 else 0)
      && (d == 1 ==> head[0] == RemoveSpan(TokenAfter(src, node.span, AnyToken).value.span))
      && (|cs| > 0 ==> head[d] == InsertBefore(other, Terminated(CommentTexts(src, cs), "\n")))
  {
  }

  /** The edits for one node of the pair, given the text that moves: the
      header, the moved text inserted before `other`, the node removed,
      then the comments' lines removed. */
  function PlaceEdits(src: SourceCode, node: Node, other: Node, moved: string): (r: seq<Edit>)
    requires HasTokenBefore(src, node.span)
    ensures InsertBefore(other, moved) in r && RemoveSpan(node.span) in r
  {
    AllCommentsBeforeHaveTokenBefore(src, node.span);
    Header(src, node, other)
      + [InsertBefore(other, moved), RemoveSpan(node.span)]
      + CommentRemovals(src, CommentsBefore(src, node.span))
  }

  /** The order of one node's edits: the following separator token removed
      (when the node has one), the node's comments inserted before `other`
      each on its own line, its moved text inserted before `other`, the
      node removed, and each comment's lines removed. */
  lemma NodeEditsLayout(src: SourceCode, node: Node, other: Node, moved: string)
    requires HasTokenBefore(src, node.span)
    ensures var r := PlaceEdits(src, node, other, moved);
      var cs := CommentsBefore(src, node.span);
      var d := if DropsFollowingToken(src, node.span) then 1 else 0;
      var h := d + (if |cs| > 0 then 1 else 0);
      && |r| == h + 2 + |cs|
      && (d == 1 ==> r[0] == RemoveSpan(TokenAfter(src, node.span, AnyToken).value.span))
      && (|cs| > 0 ==> r[d] == InsertBefore(other, Terminated(CommentTexts(src, cs), "\n")))
      && r[h] == InsertBefore(other, moved)
      && r[h + 1] == RemoveSpan(node.span)
      && r[h + 2..] == CommentRemovals(src, cs)
  {
    AllCommentsBeforeHaveTokenBefore(src, node.span);
    HeaderLayout(src, node, other);
    var cs := CommentsBefore(src, node.span);
    EditsAround(Header(src, node, other), InsertBefore(other, moved), RemoveSpan(node.span), CommentRemovals(src, cs));
  }

  /** Positions in `head + [a, b] + tail`. */
  lemma EditsAround(head: seq<Edit>, a: Edit, b: Edit, tail: seq<Edit>)
    ensures var r := head + [a, b] + tail;
      && |r| == |head| + 2 + |tail|
      && (forall k :: 0 <= k < |head| ==> r[k] == head[k])
      && r[|head|] == a && r[|head| + 1] == b
      && r[|head| + 2..] == tail
  {
    var r := head + [a, b] + tail;
    assert r[|head| + 2..] == tail;
  }

  /** The token the edits remove after a node is its own separator, unless
      a colon punctuator sits directly after the node. */
  lemma DroppedTokenIsSeparator(src: SourceCode, s: Span)
    requires DropsFollowingToken(src, s)
    requires TokenAfter(src, s, AnyToken).value.value != ":"
    ensures TokenAfter(src, s, AnyToken) == NodePunctuator(src, s)
  {
    var i := FirstFrom(src.tokens, s.end, AnyToken);
    var k := FirstFrom(src.tokens, s.end, PunctuatorExceptColon);
    assert Accepts(PunctuatorExceptColon, src.tokens[i]);
    assert k == i;
  }

  /** The swap closure given the two moved texts: the edits for the
      current node (moving into the replacement's place) followed by those
      for the replacement (moving into the current node's place). */
  function SwapWith(src: SourceCode, current: Node, replace: Node, ma: string, mb: string): (r: seq<Edit>)
    requires HasTokenBefore(src, current.span) && HasTokenBefore(src, replace.span)
    ensures InsertBefore(replace, ma) in r && InsertBefore(current, mb) in r
    ensures RemoveSpan(current.span) in r && RemoveSpan(replace.span) in r
  {
    PlaceEdits(src, current, replace, ma) + PlaceEdits(src, replace, current, mb)
  }

  /** The swap closure of a reported pair. */
  function Swap(src: SourceCode, body: seq<Node>, sorted: seq<Node>, current: Node, replace: Node): (r: seq<Edit>)
    requires HasTokenBefore(src, current.span) && HasTokenBefore(src, replace.span)
    ensures InsertBefore(replace, MovedText(src, body, sorted, current, replace)) in r
    ensures InsertBefore(current, MovedText(src, body, sorted, replace, current)) in r
    ensures RemoveSpan(current.span) in r && RemoveSpan(replace.span) in r
    ensures forall e :: e in r && e.InsertBefore? ==> e.anchor == current || e.anchor == replace
    ensures forall e :: e in r && e.Remove? ==> TouchesNode(src, current, e) || TouchesNode(src, replace, e)
  {
    var ma := MovedText(src, body, sorted, current, replace);
    var mb := MovedText(src, body, sorted, replace, current);
    SwapStaysWithinPair(src, current, replace, ma, mb);
    SwapWith(src, current, replace, ma, mb)
  }

  /** The swap moves each node's text before the other and removes both
      nodes; it anchors insertions at the pair only, and removes nothing
      outside the pair, its following tokens and its comments' lines. */
  lemma SwapStaysWithinPair(src: SourceCode, current: Node, replace: Node, ma: string, mb: string)
    requires HasTokenBefore(src, current.span) && HasTokenBefore(src, replace.span)
    ensures var r := SwapWith(src, current, replace, ma, mb);
      && InsertBefore(replace, ma) in r
      && InsertBefore(current, mb) in r
      && RemoveSpan(current.span) in r && RemoveSpan(replace.span) in r
      && (forall e :: e in r && e.InsertBefore? ==> e.anchor == current || e.anchor == replace)
      && (forall e :: e in r && e.Remove? ==> TouchesNode(src, current, e) || TouchesNode(src, replace, e))
  {
    NodeEditsLayout(src, current, replace, ma);
    NodeEditsLayout(src, replace, current, mb);
    NodeEditsStayWithNode(src, current, replace, ma);
    NodeEditsStayWithNode(src, replace, current, mb);
    var a := PlaceEdits(src, current, replace, ma);
    var b := PlaceEdits(src, replace, current, mb);
    var ha := |Header(src, current, replace)|;
    var hb := |Header(src, replace, current)|;
    assert a[ha] in a && a[ha + 1] in a;
    assert b[hb] in b && b[hb + 1] in b;
  }

  /** A removal that stays with a node: the node itself, the token right
      after it, or the lines of a comment attached to it. */
  predicate TouchesNode(src: SourceCode, node: Node, e: Edit)
    requires HasTokenBefore(src, node.span)
  {
    || e == RemoveSpan(node.span)
    || (TokenAfter(src, node.span, AnyToken).Some? && e == RemoveSpan(TokenAfter(src, node.span, AnyToken).value.span))
    || exists c :: c in CommentsBefore(src, node.span) && HasTokenBefore(src, c.span) && e == RemoveLines(LineRange(src, c.span))
  }

  lemma HeaderStaysWithNode(src: SourceCode, node: Node, other: Node)
    requires HasTokenBefore(src, node.span)
    ensures forall e :: e in Header(src, node, other) ==>
      (e.InsertBefore? ==> e.anchor == other) && (e.Remove? ==> TouchesNode(src, node, e))
  {
    var cs := CommentsBefore(src, node.span);
    var drop: seq<Edit> := if DropsFollowingToken(src, node.span) then [RemoveSpan(TokenAfter(src, node.span, AnyToken).value.span)] else [];
    var block: seq<Edit> := if |cs| > 0 then [InsertBefore(other, CommentBlock(src, cs))] else [];
    assert Header(src, node, other) == drop + block;
    forall e | e in drop + block
      ensures (e.InsertBefore? ==> e.anchor == other) && (e.Remove? ==> TouchesNode(src, node, e))
    {
      if e in drop {
        assert e == RemoveSpan(TokenAfter(src, node.span, AnyToken).value.span);
      } else {
        assert e == block[0];
      }
    }
  }

  lemma CommentRemovalsStayWithNode(src: SourceCode, node: Node)
    requires HasTokenBefore(src, node.span)
    ensures forall c :: c in CommentsBefore(src, node.span) ==> HasTokenBefore(src, c.span)
    ensures forall e :: e in CommentRemovals(src, CommentsBefore(src, node.span)) ==>
      e.Remove? && TouchesNode(src, node, e)
  {
    AllCommentsBeforeHaveTokenBefore(src, node.span);
    var cs := CommentsBefore(src, node.span);
    var tail := CommentRemovals(src, cs);
    forall e | e in tail
      ensures e.Remove? && TouchesNode(src, node, e)
    {
      var j :| 0 <= j < |tail| && tail[j] == e;
      assert cs[j] in cs;
    }
  }

  /** A node's edits insert only before `other` and remove only what
      stays with the node. */
  lemma NodeEditsStayWithNode(src: SourceCode, node: Node, other: Node, moved: string)
    requires HasTokenBefore(src, node.span)
    ensures forall e :: e in PlaceEdits(src, node, other, moved) && e.InsertBefore? ==> e.anchor == other
    ensures forall e :: e in PlaceEdits(src, node, other, moved) && e.Remove? ==> TouchesNode(src, node, e)
  {
    CommentRemovalsStayWithNode(src, node);
    HeaderStaysWithNode(src, node, other);
    var head := Header(src, node, other);
    var mid := [InsertBefore(other, moved), RemoveSpan(node.span)];
    var tail := CommentRemovals(src, CommentsBefore(src, node.span));
    var r := PlaceEdits(src, node, other, moved);
    assert r == head + mid + tail;
    forall e | e in r
      ensures (e.InsertBefore? ==> e.anchor == other) && (e.Remove? ==> TouchesNode(src, node, e))
    {
      if e !in head && e !in mid {
        assert e in tail;
      }
    }
  }
}
